=== FILE: README.md ===
# MenuItem and LinkButton decision logic, in Dafny

This project models the decision logic of two components of a React design
system. It treats each component as a total function from its props to a
description of what it renders. Presentation itself is not modelled.

- **MenuItem** (vertical navigation) decides several things:
  - whether the item renders at all;
  - the class tokens of the anchor;
  - what follows the label: a chevron, a count pill capped at "99+", or nothing;
  - the classes of the label and of the leading icon;
  - the tab index and whether the tooltip is shown;
  - what the click and key handlers do;
  - what a custom item renderer receives.
- **LinkButton** fills in its `defaultProps`, then derives the button's class
  tokens, the icon wrapper's class tokens, whether an icon is emitted, and the
  icon's pixel size.

Modules:

- `ClassNames` models the object form of the `classnames` helper. Keys are
  computed, so two entries can carry the same key. A JavaScript object literal
  keeps the value written last, and `Tokens` applies that rule.
  `TokensMeaning` gives an independent characterisation: a token is produced
  exactly when its last entry switches it on. `TokensWithoutErasure` proves
  that when no switched-off entry repeats an earlier key, the result is simply
  the set of keys whose condition is truthy. All the class lists of both
  components fall under that lemma.
- `Decimal` models the text a number renders as (`String(n)` for an integer
  written in plain decimal digits, which is what JavaScript does below 1e21 in
  magnitude). It comes with a parser and a round-trip proof, so different
  counts in that range show different texts. It also proves that such a text
  never contains "+".
- `MenuItem` and `LinkButton` model the two components.
- `Options` is an optional value, standing for a prop or field that may be
  `undefined`.

A user `className` on LinkButton is one more computed key, written after the
built-in modifiers. It can therefore repeat one of them. With `subtle` false
and `className` equal to `"LinkButton--subtle"`, both appearance modifiers are
present (`ClassNameCanRepeatModifier`). "Exactly one of default and subtle"
holds only for a `className` that is not one of those two tokens
(`ExactlyOneAppearance`).

## Model

| member | source | states |
|---|---|---|
| `ClassNames.TokensMeaning` | core/components/atoms/linkButton/LinkButton.tsx:73-80 | A class token is produced exactly when some entry switches it on and no later entry writes the same key again (object-literal last-write-wins). |
| `ClassNames.TokensWithoutErasure` | core/components/organisms/verticalNav/MenuItem.tsx:105-115 | If no switched-off entry repeats an earlier key, `classNames` gives exactly the set of keys whose condition is truthy, regardless of order. |
| `ClassNames.DistinctKeysTokens` | core/components/organisms/verticalNav/MenuItem.tsx:41-44 | Entries with pairwise different keys give exactly the keys whose condition is truthy. |
| `Decimal.NatToString` | core/components/organisms/verticalNav/MenuItem.tsx:53 | The text of a count is a non-empty string of decimal digits, without leading zeros: it starts with '0' iff the count is 0. |
| `Decimal.IntToStringRoundTrip` | core/components/organisms/verticalNav/MenuItem.tsx:53 | Reading back the text a number renders as gives the number. |
| `Decimal.IntToStringInjective` | core/components/organisms/verticalNav/MenuItem.tsx:53 | Two numbers render the same text iff they are equal. |
| `Decimal.NatToStringShort` | core/components/organisms/verticalNav/MenuItem.tsx:123 | A count from 0 to 99 renders in at most two characters, and in exactly one iff it is below 10. |
| `Decimal.NoPlusSign` | core/components/organisms/verticalNav/MenuItem.tsx:123 | No character of a number's text is "+", so a number never renders as "99+". |
| `MenuItem.MenuIcon` | core/components/organisms/verticalNav/MenuItem.tsx:33-36 | The chevron is `keyboard_arrow_up` iff the children are visible, otherwise `keyboard_arrow_down`. |
| `MenuItem.MenuPills` | core/components/organisms/verticalNav/MenuItem.tsx:38-56 | The pill always has `MenuItem-count`, has `MenuItem-count--disabled` iff disabled, and has no other token. It is subtle iff disabled, shows the count it was given, and takes its appearance from `getPillsAppearance(isActive)`. |
| `MenuItem.CappedCount` | core/components/organisms/verticalNav/MenuItem.tsx:122-124 | The default pill text is "99+" iff the count exceeds 99. Otherwise the count is passed unchanged. A non-negative count shows at most three characters. |
| `MenuItem.SubMenu` | core/components/organisms/verticalNav/MenuItem.tsx:117-127 | A submenu yields the chevron whatever the count. Otherwise a defined count yields the capped pill, with the disabled modifier iff the menu is disabled. Otherwise nothing follows the label. |
| `MenuItem.MenuLabel` | core/components/organisms/verticalNav/MenuItem.tsx:71-83 | The label always has `MenuItem-Text` and `MenuItem--overflow`, plus `mr-5` iff there is neither a submenu nor a count. It shows the menu label in the given colour. |
| `MenuItem.LeadingIcon` | core/components/organisms/verticalNav/MenuItem.tsx:154-161 | The leading icon has the menu's icon name and type, and `mr-4` iff the item is expanded. |
| `MenuItem.ItemClassTokens` | core/components/organisms/verticalNav/MenuItem.tsx:103-115 | `MenuItem`, `MenuItem--vertical` and `color-<colour>` are always present. Collapsed iff not expanded, expanded iff expanded, active iff active, disabled iff disabled, subMenu iff child and expanded, rounded iff rounded and expanded. No other token appears. |
| `MenuItem.CollapsedXorExpanded` | core/components/organisms/verticalNav/MenuItem.tsx:108-109 | Exactly one of `MenuItem--collapsed` and `MenuItem--expanded` is present. |
| `MenuItem.OnClick` | core/components/organisms/verticalNav/MenuItem.tsx:85-88 | A click always prevents the default action. It calls `onClick` with the menu iff `onClick` is given. |
| `MenuItem.OnKeyDown` | core/components/organisms/verticalNav/MenuItem.tsx:90-94 | A key press calls `onClick(menu)` iff the key is "Enter" and `onClick` is given. It prevents the default action iff the key is "Enter". |
| `MenuItem.EnterIsClick` | core/components/organisms/verticalNav/MenuItem.tsx:85-94 | "Enter" has exactly the effect of a click, and any other key has no effect. |
| `MenuItem.TabIndex` | core/components/organisms/verticalNav/MenuItem.tsx:151 | The tab index is -1 iff the menu is disabled, otherwise 0. |
| `MenuItem.CustomArgs` | core/components/organisms/verticalNav/MenuItem.tsx:131-138 | A custom renderer gets the props, the chevron and the label. It gets a pill iff the count is defined, and that pill carries the raw, uncapped count. |
| `MenuItem.AnchorClass` | core/components/organisms/verticalNav/MenuItem.tsx:147-148 | The spread of the base props comes after `className={ItemClass}`, so a `className` key there wins. `MenuItem` is on the anchor iff no such key is passed or it is exactly "MenuItem". With no such key, the disabled modifier follows `menu.disabled`. A passed non-empty class is the only token, and an undefined or empty one leaves none. |
| `MenuItem.Render` | core/components/organisms/verticalNav/MenuItem.tsx:129-167 | Nothing renders iff the item is collapsed and has no icon, even with a custom renderer. Otherwise the custom renderer is used iff given. The default anchor is described by its contract (see below). |
| `MenuItem.LabelMarginMatchesTrailing` | core/components/organisms/verticalNav/MenuItem.tsx:78-127 | In an expanded default item, the label has `mr-5` iff no widget follows it. |
| `MenuItem.CustomPillUncapped` | core/components/organisms/verticalNav/MenuItem.tsx:122-137 | The default pill and the custom renderer's pill show the same text iff the count is at most 99. |
| `LinkButton.IconPixels` | core/components/atoms/linkButton/LinkButton.tsx:65-68 | The icon is 12 pixels iff the size is tiny, and 16 pixels iff regular. |
| `LinkButton.WithDefaults` | core/components/atoms/linkButton/LinkButton.tsx:110-114 | Size, type and icon alignment are always set afterwards. A given value is kept, and a missing one becomes regular, button or left. No other prop changes. |
| `LinkButton.WithDefaultsIdempotent` | core/components/atoms/linkButton/LinkButton.tsx:110-114 | Applying the defaults twice is the same as applying them once. |
| `LinkButton.ButtonTokens` | core/components/atoms/linkButton/LinkButton.tsx:73-80 | `LinkButton` is always present. The size modifier is present iff the size is set. Default iff not subtle, subtle iff subtle. The alignment modifier is present iff the children are truthy and the alignment is set. Each of these also holds when `className` repeats that token. A truthy `className` is included verbatim. No token appears beyond those six keys. |
| `LinkButton.ExactlyOneAppearance` | core/components/atoms/linkButton/LinkButton.tsx:76-77 | Unless `className` repeats one of them, exactly one of default and subtle is present, and subtle iff `subtle`. |
| `LinkButton.ClassNameCanRepeatModifier` | core/components/atoms/linkButton/LinkButton.tsx:76-79 | A `className` equal to `LinkButton--subtle` on a non-subtle button yields both appearance modifiers. |
| `LinkButton.IconClass` | core/components/atoms/linkButton/LinkButton.tsx:82-85 | `LinkButton-icon` is always present. The icon alignment modifier is present iff the children are truthy and the alignment is set. No other token appears. |
| `LinkButton.RenderProps` | core/components/atoms/linkButton/LinkButton.tsx:70-107 | An icon is emitted iff `icon` is non-empty, with the icon classes and name. Its pixel size is defined iff the size is, and then it is `sizeMapping` of that size (12 or 16). Type, disabled flag, tab index and children pass through. |
| `LinkButton.RenderDefaults` | core/components/atoms/linkButton/LinkButton.tsx:98-114 | With defaults applied, a button without a size has `LinkButton--regular` and a button without a type is a `button`. An emitted icon always has a pixel size: 16 when no size is given, otherwise `sizeMapping` of the size. |
| `LinkButton.RenderAlignment` | core/components/atoms/linkButton/LinkButton.tsx:78-113 | With defaults applied (left unless set), both alignment modifiers appear iff the children are truthy. An empty string or zero suppresses them. This holds for every `className` except one equal to the button's alignment modifier. |
| `LinkButton.NoClassNameNoExtraToken` | core/components/atoms/linkButton/LinkButton.tsx:73-80 | Without a `className`, every button token is the component's own. |

The contract of `MenuItem.Render` states the following about the default anchor:

- its classes are `ItemClass` for the colour `getNavItemColor` returns, unless the spread of `extractBaseProps`' result carries a `className` key. Such a key comes after `className={ItemClass}` and replaces it: a non-empty one becomes the only token, and an `undefined` or empty one leaves none;
- `href` is the menu link and the role is `button`;
- the tab index is -1 iff the item is disabled, and is always -1 or 0;
- the tooltip shows the menu label, and is shown iff the item is collapsed or its text is truncated;
- the leading icon is present iff the menu has a truthy icon, and is then exactly the one `LeadingIcon` describes: the menu's icon name and type, with `mr-4` iff expanded;
- the label is present iff the item is expanded, and is then exactly the one `MenuLabel` describes: the menu label, in the colour `getNavItemColor(isActive, disabled)` returns, with its label classes;
- the trailing widget is the one from `SubMenu` when expanded, and there is none when collapsed.

## Left out

- React rendering, JSX, refs, `forwardRef`, `useState` and `useEffect` are not modelled. The label's truncation, which `detectTruncation` measures in the DOM, is a boolean input to `MenuItem.Render`.
- `getNavItemColor` and `getPillsAppearance` come from a navigation-helper file that is not part of this model. They are uninterpreted function-valued fields of `MenuItem.Helpers`.
- `extractBaseProps` is not part of this model. Its result's `className` key is an input to `MenuItem` (`Props.baseClass`), since it can replace the anchor's classes. Its other keys, and the remaining LinkButton props, are passthrough onto DOM attributes. The explicit tab index overrides the spread one and is kept.
- MenuItem.Render: assumes `extractBaseProps` does not return `href` or `onClick` keys, which would replace the menu link and the click handler in the spread.
- The `Tooltip`, `Icon`, `Pills` and `Text` components are external. Only the props MenuItem and LinkButton pass to them are described.
- The `onClick` callback and `customItemRenderer` are modelled by whether they are present. Their effects and the element a custom renderer returns are outside the model.
- Counts and numeric children are integers. Fractional numbers, `NaN` and infinities are not modelled.
- Decimal.NatToString: writes every count in plain digits. JavaScript's `String(n)` switches to exponent form from 1e21 in magnitude (`"1e+21"`), so the model only matches counts below that.
- Decimal.NoPlusSign: holds only for counts below 1e21 in magnitude. Exponent-form text such as `"1e+21"` contains "+". It is still never "99+", so the cap results are unaffected.
- Decimal.IntToStringInjective: integers are unbounded here. JavaScript numbers above 2^53 are not all distinct, so distinct texts for distinct counts are only promised within that range.
- Decimal.IntToStringRoundTrip: proved for unbounded integers. It matches JavaScript only for counts whose text is in plain digits (below 1e21) and that a JavaScript number holds exactly (up to 2^53).
- The result of `classNames` is a set of tokens, not the space-joined string. A `className` that contains spaces counts as one token, as it is a single object key.
- Optional booleans (`expanded`, `rounded`, `hasSubmenu`, `isChildren`, `isChildrenVisible`, `disabled`, `subtle`) are `false` when left undefined, as JavaScript truthiness treats them.
- `data-test` attributes, the classes of the layout `div` inside the anchor, `onMouseEnter`, `onMouseLeave` and `autoFocus` are presentation or passthrough.
- The Avatar component is not modelled. Its implementation is not part of this model, and its tests and stories only describe it.

=== FILE: classnames.dfy ===
/**
 * The object form of the `classnames` helper: `classNames({k1: c1, k2: c2, ...})`
 * yields the keys whose value is truthy.  The keys of an object literal may be
 * computed (`[`LinkButton--${size}`]`), so two entries can carry the same key;
 * JavaScript then keeps the value written last.  The model keeps the entries in
 * source order and applies that rule.
 */
module ClassNames {

  /** One `key: condition` pair, with the condition already reduced to its truthiness. */
  datatype Entry = Entry(key: string, on: bool)

  /** Key `k` ends up in the class list: some entry switches it on and no later entry writes it again. */
  ghost predicate LastOn(es: seq<Entry>, k: string)
  {
    exists i :: 0 <= i < |es| && es[i].key == k && es[i].on && NotRewritten(es, i, k)
  }

  /** No entry after position `i` carries key `k`. */
  ghost predicate NotRewritten(es: seq<Entry>, i: int, k: string)
  {
    forall j :: 0 <= j < |es| && i < j ==> es[j].key != k
  }

  /** The class tokens `classNames` produces for the entries, written one entry at a time. */
  function Tokens(es: seq<Entry>): (r: set<string>)
    decreases |es|
  {
    if es == [] then {}
    else
      var prev := Tokens(es[..|es| - 1]);
      var e := es[|es| - 1];
      if e.on then prev + {e.key} else prev - {e.key}
  }

  /** A token is produced exactly when its last entry switches it on. */
  lemma {:induction false} TokensMeaning(es: seq<Entry>, k: string)
    ensures k in Tokens(es) <==> LastOn(es, k)
    decreases |es|
  {
    if es != [] {
      var init := es[..|es| - 1];
      var n := |es| - 1;
      TokensMeaning(init, k);
      assert Tokens(es) == if es[n].on then Tokens(init) + {es[n].key} else Tokens(init) - {es[n].key};
      if es[n].key == k {
        if es[n].on {
          assert NotRewritten(es, n, k);
        } else {
          assert !LastOn(es, k);
        }
      } else {
        if LastOn(init, k) {
          var i :| 0 <= i < |init| && init[i].key == k && init[i].on && NotRewritten(init, i, k);
          assert es[i] == init[i];
          assert NotRewritten(es, i, k);
        }
        if LastOn(es, k) {
          var i :| 0 <= i < |es| && es[i].key == k && es[i].on && NotRewritten(es, i, k);
          assert i < n;
          assert init[i] == es[i];
          assert NotRewritten(init, i, k);
        }
      }
    }
  }

  /** No switched-off entry repeats a key that an earlier entry carries. */
  ghost predicate NoErasure(es: seq<Entry>)
  {
    forall i, j :: 0 <= i < j < |es| && !es[j].on ==> es[i].key != es[j].key
  }

  /** The keys some entry switches on, ignoring the order of the entries. */
  function SwitchedOn(es: seq<Entry>): set<string>
  {
    set i | 0 <= i < |es| && es[i].on :: es[i].key
  }

  /**
   * When nothing is erased, `classNames` is just the set of keys whose condition is
   * truthy, whatever the order of the entries.
   */
  lemma {:induction false} TokensWithoutErasure(es: seq<Entry>)
    requires NoErasure(es)
    ensures Tokens(es) == SwitchedOn(es)
    decreases |es|
  {
    if es != [] {
      var init := es[..|es| - 1];
      var n := |es| - 1;
      assert NoErasure(init) by {
        forall i, j | 0 <= i < j < |init| && !init[j].on
          ensures init[i].key != init[j].key
        {
          assert init[i] == es[i] && init[j] == es[j];
        }
      }
      TokensWithoutErasure(init);
      assert Tokens(es) == if es[n].on then Tokens(init) + {es[n].key} else Tokens(init) - {es[n].key};
      forall k
        ensures k in Tokens(es) <==> k in SwitchedOn(es)
      {
        if k in SwitchedOn(init) {
          var i :| 0 <= i < |init| && init[i].on && init[i].key == k;
          assert es[i] == init[i];
        }
        if k in SwitchedOn(es) && k != es[n].key {
          var i :| 0 <= i < |es| && es[i].on && es[i].key == k;
          assert init[i] == es[i];
        }
        if !es[n].on && k == es[n].key {
          assert k !in SwitchedOn(init);
        }
      }
    }
  }

  /**
   * Entries with pairwise different keys never erase each other: each key is a
   * token exactly when its own entry switches it on.
   */
  lemma {:induction false} DistinctKeysTokens(es: seq<Entry>)
    requires forall i, j :: 0 <= i < j < |es| ==> es[i].key != es[j].key
    ensures Tokens(es) == SwitchedOn(es)
    ensures forall m :: 0 <= m < |es| ==> (es[m].key in Tokens(es) <==> es[m].on)
  {
    TokensWithoutErasure(es);
    forall m | 0 <= m < |es|
      ensures es[m].key in SwitchedOn(es) <==> es[m].on
    {
      if es[m].key in SwitchedOn(es) {
        var i :| 0 <= i < |es| && es[i].on && es[i].key == es[m].key;
        assert i == m;
      }
    }
  }
}

=== FILE: decimal.dfy ===
/**
 * The decimal text JavaScript's `String(n)` gives an integer, which is what a
 * number child such as a pill's count renders as, and its inverse.
 */
module Decimal {
  import opened Options

  predicate IsDigit(c: char)
  {
    '0' <= c <= '9'
  }

  function DigitChar(d: nat): (c: char)
    requires d < 10
    ensures IsDigit(c)
  {
    ('0' as int + d) as char
  }

  function DigitValue(c: char): (d: nat)
    requires IsDigit(c)
    ensures d < 10
  {
    (c as int - '0' as int)
  }

  /** Decimal digits of `n`, most significant first, without leading zeros. */
  function NatToString(n: nat): (s: string)
    ensures |s| >= 1
    ensures forall i :: 0 <= i < |s| ==> IsDigit(s[i])
    ensures s[0] == '0' <==> n == 0
  {
    if n < 10 then [DigitChar(n)] else NatToString(n / 10) + [DigitChar(n % 10)]
  }

  /** `String(n)` for an integer: a minus sign before the digits of a negative number. */
  function IntToString(n: int): string
  {
    if n < 0 then "-" + NatToString(-n) else NatToString(n)
  }

  /** The value of a non-empty string of decimal digits. */
  function ParseDigits(s: string): (n: nat)
    requires |s| >= 1
    requires forall i :: 0 <= i < |s| ==> IsDigit(s[i])
    decreases |s|
  {
    if |s| == 1 then DigitValue(s[0])
    else ParseDigits(s[..|s| - 1]) * 10 + DigitValue(s[|s| - 1])
  }

  /** Reads back an optional minus sign followed by decimal digits; anything else is rejected. */
  function ParseInt(s: string): Option<int>
  {
    if |s| >= 2 && s[0] == '-' && (forall i :: 1 <= i < |s| ==> IsDigit(s[i])) then
      Some(0 - ParseDigits(s[1..]) as int)
    else if |s| >= 1 && forall i :: 0 <= i < |s| ==> IsDigit(s[i]) then
      Some(ParseDigits(s))
    else
      None
  }

  lemma {:induction false} ParseNatToString(n: nat)
    ensures ParseDigits(NatToString(n)) == n
    decreases n
  {
    if n >= 10 {
      var s := NatToString(n);
      var init := NatToString(n / 10);
      assert s[..|s| - 1] == init;
      ParseNatToString(n / 10);
    }
  }

  /** Reading the text of a number gives the number back, so different numbers never render alike. */
  lemma IntToStringRoundTrip(n: int)
    ensures ParseInt(IntToString(n)) == Some(n)
  {
    if n < 0 {
      var s := IntToString(n);
      assert s[1..] == NatToString(-n);
      ParseNatToString(-n);
    } else {
      ParseNatToString(n);
    }
  }

  lemma IntToStringInjective(a: int, b: int)
    ensures IntToString(a) == IntToString(b) <==> a == b
  {
    IntToStringRoundTrip(a);
    IntToStringRoundTrip(b);
  }

  /** Numbers below ten have one digit and numbers below a hundred at most two. */
  lemma NatToStringShort(n: nat)
    requires n <= 99
    ensures |NatToString(n)| <= 2
    ensures n < 10 <==> |NatToString(n)| == 1
  {
  }

  /** The text of a number contains only digits after an optional minus sign, so no plus sign. */
  lemma NoPlusSign(n: int)
    ensures forall i :: 0 <= i < |IntToString(n)| ==> IntToString(n)[i] != '+'
  {
  }
}

=== FILE: linkbutton.dfy ===
/**
 * The `LinkButton` atom: a button styled as a link, with an optional icon on
 * either side of its text.  Modelled as a function from its props, after
 * `defaultProps` are filled in, to a description of the button it renders.
 */
module LinkButton {
  import opened Options
  import opened ClassNames

  datatype Size = Tiny | Regular
  datatype IconAlignment = Left | Right
  datatype ButtonType = Button | Submit | Reset

  /** The button's text child, `React.ReactText`: a string or a number (integers only here). */
  datatype ReactText = Str(s: string) | Num(n: int)

  /** JavaScript truthiness of a text child: the empty string and zero are falsy. */
  predicate Truthy(t: ReactText)
  {
    match t
    case Str(s) => s != ""
    case Num(n) => n != 0
  }

  /** The props the decisions depend on; `disabled` and `subtle` left `undefined` read as `false`. */
  datatype Props = Props(
    kind: Option<ButtonType>,
    size: Option<Size>,
    disabled: bool,
    icon: Option<string>,
    iconAlign: Option<IconAlignment>,
    children: ReactText,
    tabIndex: Option<int>,
    subtle: bool,
    className: Option<string>)

  function SizeName(s: Size): string
  {
    match s
    case Tiny => "tiny"
    case Regular => "regular"
  }

  function AlignName(a: IconAlignment): string
  {
    match a
    case Left => "left"
    case Right => "right"
  }

  /** A template-literal hole: an `undefined` value is written as the text "undefined". */
  function Interpolate(o: Option<string>): string
  {
    o.GetOr("undefined")
  }

  /** `sizeMapping`: the icon's pixel size for each button size. */
  function IconPixels(s: Size): (px: int)
    ensures px == 12 <==> s == Tiny
    ensures px == 16 <==> s == Regular
  {
    match s
    case Tiny => 12
    case Regular => 16
  }

  /** `defaultProps`: size "regular", type "button" and icon alignment "left" replace `undefined`. */
  function WithDefaults(p: Props): (q: Props)
    ensures q.size.Some? && q.kind.Some? && q.iconAlign.Some?
    ensures p.size.Some? ==> q.size == p.size
    ensures p.kind.Some? ==> q.kind == p.kind
    ensures p.iconAlign.Some? ==> q.iconAlign == p.iconAlign
    ensures q.size.value == Regular || p.size.Some?
    ensures q.kind.value == Button || p.kind.Some?
    ensures q.iconAlign.value == Left || p.iconAlign.Some?
    ensures q.(size := p.size, kind := p.kind, iconAlign := p.iconAlign) == p
  {
    p.(size := Some(p.size.GetOr(Regular)),
       kind := Some(p.kind.GetOr(Button)),
       iconAlign := Some(p.iconAlign.GetOr(Left)))
  }

  /** The size modifier, `LinkButton--${size}`. */
  function SizeToken(s: Option<Size>): string
  {
    "LinkButton--" + Interpolate(if s.Some? then Some(SizeName(s.value)) else None)
  }

  /** The alignment modifier of the button, `LinkButton--iconAlign-${iconAlign}`. */
  function AlignToken(a: Option<IconAlignment>): string
  {
    "LinkButton--iconAlign-" + Interpolate(if a.Some? then Some(AlignName(a.value)) else None)
  }

  /** The alignment modifier of the icon, `LinkButton-icon--${iconAlign}`. */
  function IconAlignToken(a: Option<IconAlignment>): string
  {
    "LinkButton-icon--" + Interpolate(if a.Some? then Some(AlignName(a.value)) else None)
  }

  /** `className` is truthy: present and not empty. */
  predicate HasClassName(p: Props)
  {
    p.className.Some? && p.className.value != ""
  }

  /** The button's class entries, in source order. */
  function ButtonEntries(p: Props): seq<Entry>
  {
    [ Entry("LinkButton", true),
      Entry(SizeToken(p.size), p.size.Some?),
      Entry("LinkButton--default", !p.subtle),
      Entry("LinkButton--subtle", p.subtle),
      Entry(AlignToken(p.iconAlign), Truthy(p.children) && p.iconAlign.Some?),
      Entry(Interpolate(p.className), HasClassName(p)) ]
  }

  /** A token the component writes itself: it starts with "LinkButton". */
  predicate OwnToken(t: string)
  {
    |t| >= 10 && t[..10] == "LinkButton"
  }

  /** Both modifiers start with "LinkButton--"; the size modifier continues with 't', 'r' or 'u'. */
  lemma SizeTokenShape(s: Option<Size>)
    ensures |SizeToken(s)| >= 16 && SizeToken(s)[..10] == "LinkButton"
    ensures SizeToken(s)[12] == 't' || SizeToken(s)[12] == 'r' || SizeToken(s)[12] == 'u'
  {
  }

  /** The alignment modifier continues "LinkButton--" with 'i'. */
  lemma AlignTokenShape(a: Option<IconAlignment>)
    ensures |AlignToken(a)| >= 16 && AlignToken(a)[..10] == "LinkButton" && AlignToken(a)[12] == 'i'
  {
  }

  /** The keys of the first five entries are the component's own and pairwise different; the last one is not its own unless it is switched on. */
  lemma ButtonEntryFacts(p: Props)
    ensures forall i :: 0 <= i < 5 ==> OwnToken(ButtonEntries(p)[i].key)
    ensures forall i, j :: 0 <= i < j < 5 ==> ButtonEntries(p)[i].key != ButtonEntries(p)[j].key
    ensures !ButtonEntries(p)[5].on ==> !OwnToken(ButtonEntries(p)[5].key)
    ensures NoErasure(ButtonEntries(p))
  {
    var es := ButtonEntries(p);
    SizeTokenShape(p.size);
    AlignTokenShape(p.iconAlign);
    assert |es[0].key| == 10;
    assert es[2].key[12] == 'd' && es[3].key[12] == 's';
    assert OwnToken(es[0].key) && OwnToken(es[2].key) && OwnToken(es[3].key);
    if !es[5].on {
      assert es[5].key == "undefined" || es[5].key == "";
    }
  }

  /** The button has no class token beyond the keys of its six entries that can be switched on. */
  lemma ButtonClassBound(p: Props)
    ensures ButtonClass(p) <= {"LinkButton", SizeToken(p.size), "LinkButton--default", "LinkButton--subtle",
                               AlignToken(p.iconAlign)} + (if HasClassName(p) then {p.className.value} else {})
  {
    var es := ButtonEntries(p);
    ButtonEntryFacts(p);
    TokensWithoutErasure(es);
    forall t | t in Tokens(es)
      ensures t in {"LinkButton", SizeToken(p.size), "LinkButton--default", "LinkButton--subtle",
                    AlignToken(p.iconAlign)} + (if HasClassName(p) then {p.className.value} else {})
    {
      var i :| 0 <= i < |es| && es[i].on && es[i].key == t;
    }
  }

  /**
   * The button's class tokens.  A truthy `className` is added verbatim and may
   * repeat a built-in modifier, which then appears whatever the prop that
   * normally controls it says; without one, every token is the component's own.
   */
  lemma ButtonTokens(p: Props)
    ensures "LinkButton" in ButtonClass(p)
    ensures SizeToken(p.size) in ButtonClass(p) <==> p.size.Some? || p.className == Some(SizeToken(p.size))
    ensures "LinkButton--default" in ButtonClass(p) <==> !p.subtle || p.className == Some("LinkButton--default")
    ensures "LinkButton--subtle" in ButtonClass(p) <==> p.subtle || p.className == Some("LinkButton--subtle")
    ensures AlignToken(p.iconAlign) in ButtonClass(p)
        <==> (Truthy(p.children) && p.iconAlign.Some?) || p.className == Some(AlignToken(p.iconAlign))
    ensures HasClassName(p) ==> p.className.value in ButtonClass(p)
    ensures ButtonClass(p) <= {"LinkButton", SizeToken(p.size), "LinkButton--default", "LinkButton--subtle",
                               AlignToken(p.iconAlign)} + (if HasClassName(p) then {p.className.value} else {})
  {
    ButtonClassBound(p);
    var es := ButtonEntries(p);
    ButtonEntryFacts(p);
    TokensWithoutErasure(es);
    var r := Tokens(es);
    assert r == SwitchedOn(es);
    SizeTokenShape(p.size);
    AlignTokenShape(p.iconAlign);
    assert es[0].key in SwitchedOn(es);
    assert SizeToken(p.size) in r <==> p.size.Some? || p.className == Some(SizeToken(p.size)) by {
      var k := SizeToken(p.size);
      if k in r {
        var i :| 0 <= i < |es| && es[i].on && es[i].key == k;
        assert i == 1 || i == 5;
      }
      if p.size.Some? {
        assert es[1].key in SwitchedOn(es);
      }
    }
    if HasClassName(p) {
      assert es[5].key in SwitchedOn(es);
    }
    assert "LinkButton--default" in r <==> !p.subtle || p.className == Some("LinkButton--default") by {
      var k := "LinkButton--default";
      assert k[12] == 'd' && |k| > 10;
      if k in r {
        var i :| 0 <= i < |es| && es[i].on && es[i].key == k;
        assert i == 2 || i == 5;
      }
      if !p.subtle {
        assert es[2].key in SwitchedOn(es);
      }
    }
    assert "LinkButton--subtle" in r <==> p.subtle || p.className == Some("LinkButton--subtle") by {
      var k := "LinkButton--subtle";
      assert k[12] == 's' && |k| > 10;
      if k in r {
        var i :| 0 <= i < |es| && es[i].on && es[i].key == k;
        assert i == 3 || i == 5;
      }
      if p.subtle {
        assert es[3].key in SwitchedOn(es);
      }
    }
    assert AlignToken(p.iconAlign) in r
        <==> (Truthy(p.children) && p.iconAlign.Some?) || p.className == Some(AlignToken(p.iconAlign)) by {
      var k := AlignToken(p.iconAlign);
      if k in r {
        var i :| 0 <= i < |es| && es[i].on && es[i].key == k;
        assert i == 4 || i == 5;
      }
      if Truthy(p.children) && p.iconAlign.Some? {
        assert es[4].key in SwitchedOn(es);
      }
    }
  }


  /** The button's class tokens: `classNames` over the entries above. */
  function ButtonClass(p: Props): set<string>
  {
    Tokens(ButtonEntries(p))
  }

  /** The icon wrapper's class tokens. */
  function IconClass(p: Props): (r: set<string>)
    ensures "LinkButton-icon" in r
    ensures IconAlignToken(p.iconAlign) in r <==> Truthy(p.children) && p.iconAlign.Some?
    ensures r <= {"LinkButton-icon", IconAlignToken(p.iconAlign)}
  {
    var es := [Entry("LinkButton-icon", true),
               Entry(IconAlignToken(p.iconAlign), Truthy(p.children) && p.iconAlign.Some?)];
    assert IconAlignToken(p.iconAlign)[15] == '-';
    DistinctKeysTokens(es);
    Tokens(es)
  }

  /** The icon inside the button: wrapper classes, icon name and pixel size. */
  datatype IconView = IconView(classes: set<string>, name: string, pixels: Option<int>)

  /** The rendered `button` element. */
  datatype ButtonView = ButtonView(
    kind: Option<ButtonType>,
    classes: set<string>,
    disabled: bool,
    tabIndex: Option<int>,
    icon: Option<IconView>,
    children: ReactText)

  /** The render function, for props as React hands them over (defaults already applied). */
  function RenderProps(p: Props): (v: ButtonView)
    ensures v.classes == ButtonClass(p)
    ensures v.icon.Some? <==> p.icon.Some? && p.icon.value != ""
    ensures v.icon.Some? ==> v.icon.value.name == p.icon.value && v.icon.value.classes == IconClass(p)
    ensures v.icon.Some? ==> (v.icon.value.pixels.Some? <==> p.size.Some?)
    ensures v.icon.Some? && p.size.Some? ==> v.icon.value.pixels == Some(IconPixels(p.size.value))
    ensures v.kind == p.kind && v.disabled == p.disabled && v.tabIndex == p.tabIndex && v.children == p.children
  {
    ButtonView(
      p.kind,
      ButtonClass(p),
      p.disabled,
      p.tabIndex,
      if p.icon.Some? && p.icon.value != "" then
        Some(IconView(IconClass(p), p.icon.value, if p.size.Some? then Some(IconPixels(p.size.value)) else None))
      else
        None,
      p.children)
  }

  /** The component as a caller sees it: `defaultProps` first, then the render function. */
  function Render(p: Props): ButtonView
  {
    RenderProps(WithDefaults(p))
  }

  /**
   * With the defaults applied the button always has a size modifier ("regular"
   * unless set), a type ("button" unless set), and an emitted icon always has a
   * pixel size of 12 or 16.
   */
  lemma RenderDefaults(p: Props)
    ensures p.size.None? ==> "LinkButton--regular" in Render(p).classes
    ensures p.kind.None? ==> Render(p).kind == Some(Button)
    ensures Render(p).icon.Some? ==> Render(p).icon.value.pixels.Some?
    ensures p.size.None? && Render(p).icon.Some? ==> Render(p).icon.value.pixels == Some(16)
    ensures p.size.Some? && Render(p).icon.Some? ==> Render(p).icon.value.pixels == Some(IconPixels(p.size.value))
  {
    ButtonTokens(WithDefaults(p));
    assert SizeToken(Some(Regular)) == "LinkButton--regular";
  }

  /**
   * With the defaults applied the alignment is "left" unless set, so the
   * alignment modifiers of button and icon appear exactly when the text is
   * truthy: an empty string or zero suppresses both.  Only a `className` that
   * repeats the button's alignment modifier can put it back.
   */
  lemma RenderAlignment(p: Props)
    requires p.className != Some(AlignToken(WithDefaults(p).iconAlign))
    ensures var a := WithDefaults(p).iconAlign;
            (AlignToken(a) in Render(p).classes <==> Truthy(p.children))
            && (Render(p).icon.Some? ==> (IconAlignToken(a) in Render(p).icon.value.classes <==> Truthy(p.children)))
    ensures p.iconAlign.None? ==> WithDefaults(p).iconAlign == Some(Left)
  {
    ButtonTokens(WithDefaults(p));
  }

  /**
   * Unless `className` repeats one of them, exactly one of the default and
   * subtle modifiers is present, and `subtle` chooses which.
   */
  lemma ExactlyOneAppearance(p: Props)
    requires p.className != Some("LinkButton--default") && p.className != Some("LinkButton--subtle")
    ensures ("LinkButton--default" in ButtonClass(p)) != ("LinkButton--subtle" in ButtonClass(p))
    ensures "LinkButton--subtle" in ButtonClass(p) <==> p.subtle
  {
    ButtonTokens(p);
  }

  /** A `className` equal to the subtle modifier puts both appearance modifiers on a default button. */
  lemma ClassNameCanRepeatModifier(p: Props)
    requires !p.subtle && p.className == Some("LinkButton--subtle")
    ensures "LinkButton--default" in ButtonClass(p) && "LinkButton--subtle" in ButtonClass(p)
  {
    ButtonTokens(p);
  }

  /** Without a `className` every token is the component's own. */
  lemma NoClassNameNoExtraToken(p: Props)
    requires p.className.None?
    ensures forall t :: t in Render(p).classes ==> OwnToken(t)
  {
    var q := WithDefaults(p);
    ButtonTokens(q);
    ButtonEntryFacts(q);
    assert OwnToken(ButtonEntries(q)[0].key) && OwnToken(ButtonEntries(q)[1].key) && OwnToken(ButtonEntries(q)[2].key)
        && OwnToken(ButtonEntries(q)[3].key) && OwnToken(ButtonEntries(q)[4].key);
  }

  /** Applying the defaults twice changes nothing. */
  lemma WithDefaultsIdempotent(p: Props)
    ensures WithDefaults(WithDefaults(p)) == WithDefaults(p)
  {
  }
}

=== FILE: menuitem.dfy ===
/**
 * The vertical-navigation `MenuItem` component, as a total function from its
 * props to a description of what it renders.  The React tree, refs, hooks and
 * the tooltip, icon, pill and text components it composes are left out; what
 * remains is the decision logic: the render guard, the class tokens, the
 * trailing chevron or count pill, the label and icon classes, the tab index,
 * the tooltip gate and the click and key handlers.
 */
module MenuItem {
  import opened Options
  import opened ClassNames
  import Decimal

  /** A navigation entry; `disabled` left `undefined` reads as `false`. */
  datatype Menu = Menu(
    labelText: string,
    icon: Option<string>,
    iconType: Option<string>,
    count: Option<int>,
    disabled: bool,
    link: Option<string>)

  /**
   * The component's props.  Optional booleans left `undefined` read as `false`;
   * `isActive` defaults to `false` as well.  Only the presence of the `onClick`
   * callback and of a `customItemRenderer` matters to the decisions modelled.
   * `baseClass` is the `className` key of what `extractBaseProps` returns for
   * these props; that helper is not part of this model.
   */
  datatype Props = Props(
    menu: Menu,
    isActive: bool,
    expanded: bool,
    rounded: bool,
    hasSubmenu: bool,
    isChildren: bool,
    isChildrenVisible: bool,
    hasOnClick: bool,
    hasCustomRenderer: bool,
    baseClass: SpreadClass)

  /**
   * The `className` key of an object spread onto an element: not there, there
   * with the value `undefined`, or there with a string.
   */
  datatype SpreadClass = NotPassed | PassedUndefined | Passed(s: string)

  /** The navigation helpers `getNavItemColor` and `getPillsAppearance`, whose definitions are not part of this model. */
  datatype Helpers = Helpers(navItemColor: (bool, bool) -> string, pillsAppearance: bool -> string)

  /** `menu.icon` is truthy: present and not the empty string. */
  predicate HasIcon(m: Menu)
  {
    m.icon.Some? && m.icon.value != ""
  }

  /** An `Icon` element: its name, its class tokens and its icon type. */
  datatype IconView = IconView(name: string, classes: set<string>, iconType: Option<string>)

  /** What a pill shows: the source passes either a number or the string "99+". */
  datatype PillCount = Number(n: int) | Text(s: string)

  /** The text form of the count child passed to `Pills`. */
  function PillText(c: PillCount): string
  {
    match c
    case Number(n) => Decimal.IntToString(n)
    case Text(s) => s
  }

  /** A `Pills` element: class tokens, subtle flag, appearance and count. */
  datatype PillView = PillView(classes: set<string>, subtle: bool, appearance: string, count: PillCount)

  /** A `Text` element for the label. */
  datatype LabelView = LabelView(text: string, color: string, classes: set<string>)

  /** What follows the label inside an expanded item. */
  datatype Trailing = NoWidget | Chevron(chevron: IconView) | Pill(pill: PillView)

  /** The anchor the default rendering produces, with the tooltip around it. */
  datatype AnchorView = AnchorView(
    classes: set<string>,
    href: Option<string>,
    role: string,
    tabIndex: int,
    tooltipShown: bool,
    tooltipText: string,
    icon: Option<IconView>,
    labelView: Option<LabelView>,
    trailing: Trailing)

  /** The arguments handed to a `customItemRenderer`: the props and three prepared parts. */
  datatype CustomItemProps = CustomItemProps(
    props: Props,
    menuIcon: IconView,
    menuLabel: LabelView,
    menuPills: Option<PillView>)

  /** The outcome of rendering: nothing, a call of the custom renderer, or the default anchor. */
  datatype Rendered = Nothing | Custom(args: CustomItemProps) | Default(anchor: AnchorView)

  /** What a handler does: whether it calls `preventDefault`, and the menu it passes to `onClick`, if it calls it. */
  datatype Effects = Effects(preventDefault: bool, clicked: Option<Menu>)

  const ArrowUp := "keyboard_arrow_up"
  const ArrowDown := "keyboard_arrow_down"
  /** The pill text that replaces counts above the cap. */
  const Capped := "99+"
  const CountCap := 99

  /** The chevron: it points up exactly while the children are visible. */
  function MenuIcon(isChildrenVisible: bool): (v: IconView)
    ensures v.name == ArrowUp <==> isChildrenVisible
    ensures v.name == ArrowDown <==> !isChildrenVisible
    ensures v.classes == {"mx-4"}
  {
    IconView(if isChildrenVisible then ArrowUp else ArrowDown, {"mx-4"}, None)
  }

  /** The count pill: always `MenuItem-count`, plus the disabled modifier exactly when disabled. */
  function MenuPills(disabled: bool, isActive: bool, count: PillCount, h: Helpers): (v: PillView)
    ensures "MenuItem-count" in v.classes
    ensures "MenuItem-count--disabled" in v.classes <==> disabled
    ensures v.classes <= {"MenuItem-count", "MenuItem-count--disabled"}
    ensures v.subtle == disabled && v.count == count
    ensures v.appearance == h.pillsAppearance(isActive)
  {
    var es := [Entry("MenuItem-count", true), Entry("MenuItem-count--disabled", disabled)];
    DistinctKeysTokens(es);
    PillView(Tokens(es), disabled, h.pillsAppearance(isActive), count)
  }

  /** The count shown by the default pill: counts above 99 become "99+". */
  function CappedCount(n: int): (c: PillCount)
    ensures PillText(c) == Capped <==> n > CountCap
    ensures n <= CountCap ==> c == Number(n)
    ensures 0 <= n ==> |PillText(c)| <= 3
  {
    if n > CountCap then
      Text(Capped)
    else
      assert PillText(Number(n)) != Capped by {
        Decimal.NoPlusSign(n);
        assert Capped[2] == '+';
      }
      assert 0 <= n ==> |PillText(Number(n))| <= 3 by {
        if 0 <= n { Decimal.NatToStringShort(n); }
      }
      Number(n)
  }

  /**
   * The widget after the label: the chevron whenever there is a submenu,
   * otherwise the count pill when the menu has a count, otherwise nothing.
   */
  function SubMenu(p: Props, h: Helpers): (t: Trailing)
    ensures t.Chevron? <==> p.hasSubmenu
    ensures t.Pill? <==> !p.hasSubmenu && p.menu.count.Some?
    ensures t.NoWidget? <==> !p.hasSubmenu && p.menu.count.None?
    ensures t.Chevron? ==> (t.chevron.name == ArrowUp <==> p.isChildrenVisible)
    ensures t.Pill? ==> (PillText(t.pill.count) == Capped <==> p.menu.count.value > CountCap)
    ensures t.Pill? && p.menu.count.value <= CountCap ==> t.pill.count == Number(p.menu.count.value)
    ensures t.Pill? && p.menu.count.value >= 0 ==> |PillText(t.pill.count)| <= 3
    ensures t.Pill? ==> ("MenuItem-count--disabled" in t.pill.classes <==> p.menu.disabled)
  {
    if p.hasSubmenu then
      Chevron(MenuIcon(p.isChildrenVisible))
    else if p.menu.count.Some? then
      Pill(MenuPills(p.menu.disabled, p.isActive, CappedCount(p.menu.count.value), h))
    else
      NoWidget
  }

  /** The label: two fixed tokens, and a right margin when no trailing widget can follow it. */
  function MenuLabel(p: Props, color: string): (v: LabelView)
    ensures "MenuItem-Text" in v.classes && "MenuItem--overflow" in v.classes
    ensures "mr-5" in v.classes <==> !p.hasSubmenu && p.menu.count.None?
    ensures v.classes <= {"MenuItem-Text", "MenuItem--overflow", "mr-5"}
    ensures v.text == p.menu.labelText && v.color == color
  {
    LabelView(p.menu.labelText, color,
      {"MenuItem-Text", "MenuItem--overflow"} + (if p.hasSubmenu || p.menu.count.Some? then {} else {"mr-5"}))
  }

  /** The leading icon: named after the menu's icon, with a right margin only when expanded. */
  function LeadingIcon(m: Menu, expanded: bool): (v: IconView)
    requires HasIcon(m)
    ensures v.name == m.icon.value && v.iconType == m.iconType
    ensures "mr-4" in v.classes <==> expanded
    ensures v.classes <= {"mr-4"}
  {
    IconView(m.icon.value, if expanded then {"mr-4"} else {}, m.iconType)
  }

  /** The class entries of the item, in source order. */
  function ItemEntries(p: Props, color: string): seq<Entry>
  {
    [ Entry("MenuItem", true),
      Entry("MenuItem--vertical", true),
      Entry("MenuItem--collapsed", !p.expanded),
      Entry("MenuItem--expanded", p.expanded),
      Entry("MenuItem--active", p.isActive),
      Entry("MenuItem--disabled", p.menu.disabled),
      Entry("MenuItem--subMenu", p.isChildren && p.expanded),
      Entry("MenuItem--rounded", p.rounded && p.expanded),
      Entry("color-" + color, true) ]
  }

  /** The fixed tokens of the item, all starting with "MenuItem". */
  const ItemTokens: set<string> := {
    "MenuItem", "MenuItem--vertical", "MenuItem--collapsed", "MenuItem--expanded",
    "MenuItem--active", "MenuItem--disabled", "MenuItem--subMenu", "MenuItem--rounded" }

  /** The class tokens of the item anchor, for the colour `getNavItemColor` chose. */
  function ItemClass(p: Props, color: string): set<string>
  {
    Tokens(ItemEntries(p, color))
  }

  /**
   * The item's class tokens: three are always present, each modifier follows
   * its flag, and nothing else appears.
   */
  lemma ItemClassTokens(p: Props, color: string)
    ensures var r := ItemClass(p, color);
      && "MenuItem" in r && "MenuItem--vertical" in r && "color-" + color in r
      && ("MenuItem--collapsed" in r <==> !p.expanded)
      && ("MenuItem--expanded" in r <==> p.expanded)
      && ("MenuItem--active" in r <==> p.isActive)
      && ("MenuItem--disabled" in r <==> p.menu.disabled)
      && ("MenuItem--subMenu" in r <==> p.isChildren && p.expanded)
      && ("MenuItem--rounded" in r <==> p.rounded && p.expanded)
      && r <= ItemTokens + {"color-" + color}
  {
    var es := ItemEntries(p, color);
    assert ("color-" + color)[0] == 'c';
    DistinctKeysTokens(es);
    var r := Tokens(es);
    assert es[0].key in r && es[1].key in r && es[8].key in r;
    assert es[2].key in r <==> es[2].on;
    assert es[3].key in r <==> es[3].on;
    assert es[4].key in r <==> es[4].on;
    assert es[5].key in r <==> es[5].on;
    assert es[6].key in r <==> es[6].on;
    assert es[7].key in r <==> es[7].on;
    forall t | t in r
      ensures t in ItemTokens + {"color-" + color}
    {
      var i :| 0 <= i < |es| && es[i].on && es[i].key == t;
    }
  }

  /**
   * The anchor's class tokens.  `className={ItemClass}` is written before the
   * spread of the base props, so a `className` key in that spread replaces the
   * item's tokens; an `undefined` or empty one leaves the anchor without classes.
   */
  function AnchorClass(p: Props, color: string): (r: set<string>)
    ensures p.baseClass.NotPassed? ==> r == ItemClass(p, color)
    ensures p.baseClass.Passed? && p.baseClass.s != "" ==> r == {p.baseClass.s}
    ensures p.baseClass.PassedUndefined? || p.baseClass == Passed("") ==> r == {}
    ensures "MenuItem" in r <==> p.baseClass.NotPassed? || p.baseClass == Passed("MenuItem")
    ensures p.baseClass.NotPassed? ==> ("MenuItem--disabled" in r <==> p.menu.disabled)
  {
    ItemClassTokens(p, color);
    match p.baseClass
    case NotPassed => ItemClass(p, color)
    case PassedUndefined => {}
    case Passed(c) => if c == "" then {} else {c}
  }

  /** The default click handler: it always prevents the default action, then calls `onClick` with the menu if there is one. */
  function OnClick(p: Props): (e: Effects)
    ensures e.preventDefault
    ensures e.clicked.Some? <==> p.hasOnClick
    ensures e.clicked.Some? ==> e.clicked.value == p.menu
  {
    Effects(true, if p.hasOnClick then Some(p.menu) else None)
  }

  /** The key handler: only "Enter" acts, and then exactly as a click. */
  function OnKeyDown(p: Props, key: string): (e: Effects)
    ensures e.clicked.Some? <==> key == "Enter" && p.hasOnClick
    ensures e.clicked.Some? ==> e.clicked.value == p.menu
    ensures e.preventDefault <==> key == "Enter"
  {
    if key == "Enter" then OnClick(p) else Effects(false, None)
  }

  /** The tab index set on the anchor; it overrides the one spread from the base props. */
  function TabIndex(m: Menu): (t: int)
    ensures t == -1 <==> m.disabled
    ensures t == 0 <==> !m.disabled
  {
    if m.disabled then -1 else 0
  }

  /** The arguments a custom renderer receives; its pill carries the raw, uncapped count. */
  function CustomArgs(p: Props, h: Helpers): (a: CustomItemProps)
    ensures a.props == p
    ensures a.menuIcon.name == ArrowUp <==> p.isChildrenVisible
    ensures a.menuLabel.text == p.menu.labelText
    ensures a.menuPills.Some? <==> p.menu.count.Some?
    ensures a.menuPills.Some? ==> a.menuPills.value.count == Number(p.menu.count.value)
  {
    CustomItemProps(
      p,
      MenuIcon(p.isChildrenVisible),
      MenuLabel(p, h.navItemColor(p.isActive, p.menu.disabled)),
      if p.menu.count.Some? then
        Some(MenuPills(p.menu.disabled, p.isActive, Number(p.menu.count.value), h))
      else
        None)
  }

  /**
   * The component.  `truncated` is what `detectTruncation` reported for the label
   * (initially false).  A collapsed item without an icon renders nothing, even
   * when a custom renderer is given.
   */
  function Render(p: Props, truncated: bool, h: Helpers): (r: Rendered)
    ensures r.Nothing? <==> !p.expanded && !HasIcon(p.menu)
    ensures r.Custom? <==> !r.Nothing? && p.hasCustomRenderer
    ensures r.Custom? ==> r.args == CustomArgs(p, h)
    ensures r.Default? && p.baseClass.NotPassed? ==>
      r.anchor.classes == ItemClass(p, h.navItemColor(p.isActive, p.menu.disabled))
    ensures r.Default? && p.baseClass.Passed? && p.baseClass.s != "" ==> r.anchor.classes == {p.baseClass.s}
    ensures r.Default? && (p.baseClass.PassedUndefined? || p.baseClass == Passed("")) ==> r.anchor.classes == {}
    ensures r.Default? ==> r.anchor.href == p.menu.link && r.anchor.role == "button"
    ensures r.Default? ==> (r.anchor.tabIndex == -1 <==> p.menu.disabled) && r.anchor.tabIndex in {-1, 0}
    ensures r.Default? ==> (r.anchor.tooltipShown <==> !p.expanded || truncated)
    ensures r.Default? ==> r.anchor.tooltipText == p.menu.labelText
    ensures r.Default? ==> r.anchor.icon == (if HasIcon(p.menu) then Some(LeadingIcon(p.menu, p.expanded)) else None)
    ensures r.Default? ==> r.anchor.labelView == (if p.expanded then Some(MenuLabel(p, h.navItemColor(p.isActive, p.menu.disabled))) else None)
    ensures r.Default? && !p.expanded ==> r.anchor.trailing.NoWidget?
    ensures r.Default? && p.expanded ==> r.anchor.trailing == SubMenu(p, h)
  {
    if !p.expanded && !HasIcon(p.menu) then
      Nothing
    else if p.hasCustomRenderer then
      Custom(CustomArgs(p, h))
    else
      var color := h.navItemColor(p.isActive, p.menu.disabled);
      Default(AnchorView(
        AnchorClass(p, color),
        p.menu.link,
        "button",
        TabIndex(p.menu),
        if p.expanded then truncated else true,
        p.menu.labelText,
        if HasIcon(p.menu) then Some(LeadingIcon(p.menu, p.expanded)) else None,
        if p.expanded then Some(MenuLabel(p, color)) else None,
        if p.expanded then SubMenu(p, h) else NoWidget))
  }

  /** Exactly one of the collapsed and expanded modifiers is present. */
  lemma CollapsedXorExpanded(p: Props, color: string)
    ensures ("MenuItem--collapsed" in ItemClass(p, color)) != ("MenuItem--expanded" in ItemClass(p, color))
  {
    ItemClassTokens(p, color);
  }

  /**
   * In an expanded item the label carries its right margin exactly when no
   * trailing widget is rendered after it.
   */
  lemma LabelMarginMatchesTrailing(p: Props, truncated: bool, h: Helpers)
    requires p.expanded && !p.hasCustomRenderer
    ensures Render(p, truncated, h).Default?
    ensures "mr-5" in Render(p, truncated, h).anchor.labelView.value.classes
        <==> Render(p, truncated, h).anchor.trailing.NoWidget?
  {
  }

  /** The default pill and the custom renderer's pill show the same text exactly when the count is not capped. */
  lemma CustomPillUncapped(p: Props, h: Helpers)
    requires p.menu.count.Some? && !p.hasSubmenu
    ensures var t := SubMenu(p, h);
            var a := CustomArgs(p, h);
            t.Pill? && a.menuPills.Some?
            && (PillText(t.pill.count) == PillText(a.menuPills.value.count) <==> p.menu.count.value <= CountCap)
  {
    var n := p.menu.count.value;
    if n > CountCap {
      Decimal.NoPlusSign(n);
      assert Capped[2] == '+';
    }
  }

  /** An "Enter" key press behaves exactly like a click; any other key does nothing. */
  lemma EnterIsClick(p: Props, key: string)
    ensures key == "Enter" ==> OnKeyDown(p, key) == OnClick(p)
    ensures key != "Enter" ==> OnKeyDown(p, key) == Effects(false, None)
  {
  }
}

=== FILE: options.dfy ===
/** An optional value, standing for a JavaScript prop or field that may be `undefined`. */
module Options {

  datatype Option<+T> = None | Some(value: T) {

    /** The value, or `default` when there is none (what a `defaultProps` entry does). */
    function GetOr(default: T): T
    {
      match this
      case Some(v) => v
      case None => default
    }
  }
}
